=== FILE: README.md ===
# ToggleSwitch decision logic, modelled in Dafny

This project models the pure decisions made by the `ToggleSwitch` React Native component. The component is a tappable on/off track with a sliding thumb. It is fully controlled: the caller owns `isOn`, and the component reports taps through `onToggle`. The model covers the following:

- **Dimension resolver** (`Sizing.CalculateDimensions`). A size name maps to five layout numbers: `"small"`, `"large"`, the caller's own record for `"custom"`, and a fallback for `"medium"` and every unknown name.
- **Construction-time dimensions** (`ToggleSwitch.Construct`, `Update`, `UpdateAll`). Dimensions are resolved once, when the instance is built. A re-render with a new `size` or `customStyle` leaves them as they were.
- **Style builders** (`TrackStyle`, `ThumbStyle`, `LabelStyle`). Each returns the two-element style array the component passes to the framework, computed defaults first. `TrackStyle` and `ThumbStyle` append the override selected by state; `LabelStyle` appends the caller's `labelStyle`. `ThumbDefaults` is `ThumbStyle`'s computed fragment. The framework reads a style array as a left-to-right merge in which later fragments win. That reading is `Styles.Flatten`, a right-biased `map` union.
- **Animation target** (`TargetOffset`). The offset the thumb slides to depends three ways on text direction, `isOn` and the dimensions.
- **Tap handler** (`Tap`). A tap makes either no callback invocation or exactly one, carrying `!isOn`.
- **Render branch** (`Render`). The track is a gradient when the switch is on and a plain view when it is off. Both variants hold the same track style and the same thumb with its icon.

Platform globals are parameters (`Env.isRTL`, `Env.isWeb`). JavaScript `null` is `Option.None`. A thrown `TypeError` is `Result.Failure`.

Some consequences of the code are worth stating, and each is proved:

- An enabled tap without `onToggle` throws, because ToggleSwitch.js:171 calls `onToggle(!isOn)` with no guard. `Tap` returns `Failure(CallOfUndefined)` in that case (`DefaultTapThrows`).
- `"custom"` without a record resolves to `null`. Every render then throws, even after a re-render supplies a record, because the dimensions stay fixed and the style builders read fields of `null` (`CustomWithoutRecordThrows`). The animation target of an "off" switch is still `-1`, because that branch never reads the dimensions (`TargetOffset`).
- The rest offset `-1` is not centred. In right-to-left layout, a travel (`width - translateX`) of exactly 1 puts the "on" thumb on the rest offset (`RestOffsetNotCentred`).

## Model

| member | source | states |
|---|---|---|
| Sizing.CalculateDimensions | ToggleSwitch.js:25-54 | `"small"` gives exactly 40/10/15/15/22, `"large"` gives 70/20/30/30/38, `"custom"` gives the caller's record, and any other name gives 46/12/18/18/26; the result is `null` only for `"custom"` without a record |
| Sizing.FallbackIgnoresNameAndRecord | ToggleSwitch.js:45-52 | every name without its own branch, the default `"medium"` included, resolves to the same set whatever custom record is passed |
| Sizing.CustomIsIdentity | ToggleSwitch.js:43-44 | `"custom"` returns the caller's record unchanged, and no other name depends on that record |
| Sizing.PresetsWellFormed | ToggleSwitch.js:26-53 | every non-custom size yields a set with a circular thumb, positive sizes and `0 < translateX < width` |
| ToggleSwitch.Construct | ToggleSwitch.js:95 | a new instance resolves its dimensions from the initial `size` and `customStyle`; they are `null` exactly for `"custom"` without a record, and equal the record for `"custom"`; every other size gets the dimension set that size resolves to on its own, whatever record is passed, and that set is well-formed |
| ToggleSwitch.DimensionsFixedAtConstruction | ToggleSwitch.js:95-121 | after any sequence of re-renders the dimensions are the ones resolved at construction, and the props are those of the last re-render |
| ToggleSwitch.RenderIgnoresSizeProps | ToggleSwitch.js:95-102 | changing `size` or `customStyle` after construction does not change what a render produces |
| ToggleSwitch.StaleSizeScenario | ToggleSwitch.js:95-102 | a switch built `"small"` and re-rendered as `"large"` still draws a 40-unit track |
| ToggleSwitch.CustomWithoutRecordThrows | ToggleSwitch.js:95-100 | a `"custom"` switch built without a record throws on its first render and on every render after any run of re-renders, even re-renders that supply a `customStyle` |
| ToggleSwitch.TrackStyle | ToggleSwitch.js:97-108 | the effective track style has the five computed keys plus the override's keys; override keys win; otherwise justifyContent is `center`, width and padding come from the dimensions, borderRadius is 20, and the background is `onColor` when on and `offColor` when off; the override is `trackOnStyle` when on and `trackOffStyle` when off |
| ToggleSwitch.ThumbDefaults | ToggleSwitch.js:111-130 | the computed thumb fragment has exactly fifteen keys: centred content, absolute position, margin 4 and left 0 (0 and 4 on web), `circleColor` as background, the translation bound to the animated offset, width and height from circleWidth/circleHeight, corner radius half the width, and a drop shadow of colour `#000`, offset 0/2, opacity 0.2, radius 2.5 and elevation 1.5 |
| ToggleSwitch.ThumbStyle | ToggleSwitch.js:110-132 | the effective thumb style has exactly the fifteen computed keys plus the override's keys; every key of the state-selected override (`thumbOnStyle` when on, `thumbOffStyle` when off) wins; every other key keeps its computed value: centred content, absolute position, margin/left, colour, animated transform, size, half-width corner radius and the fixed shadow |
| ToggleSwitch.PresetThumbIsCircle | ToggleSwitch.js:119-121 | for every non-custom size with no geometry override, the thumb's width equals its height and is twice its corner radius |
| ToggleSwitch.LabelStyle | ToggleSwitch.js:166 | the effective label style is a horizontal margin of 10 overridden by the caller's `labelStyle` |
| ToggleSwitch.TargetOffset | ToggleSwitch.js:148-155 | off gives `-1` in either direction, even with `null` dimensions; on gives `width - translateX` left-to-right and `translateX - width` right-to-left, and throws the null-read error with `null` dimensions |
| ToggleSwitch.TargetOffsetMirrors | ToggleSwitch.js:149-155 | the right-to-left "on" offset is the exact negation of the left-to-right one, and "off" does not depend on direction |
| ToggleSwitch.OnLiesInReadingDirection | ToggleSwitch.js:148-155 | for well-formed dimensions, "on" lies strictly right of the rest offset left-to-right, and not right of it right-to-left |
| ToggleSwitch.RestOffsetNotCentred | ToggleSwitch.js:148-155 | with a travel of exactly 1, the right-to-left "on" offset equals the rest offset `-1`, while the left-to-right one is `1` |
| ToggleSwitch.Render | ToggleSwitch.js:134-193 | a render succeeds exactly when dimensions are stored, and otherwise fails with the null-read error; the track is the gradient variant exactly when `isOn`, with the configured colours, angle flag and angle 180; both variants hold the same track style and the same thumb with the icon; the animation goes to the target offset with the configured duration and driver; a label appears exactly when `label` is non-empty |
| ToggleSwitch.Tap | ToggleSwitch.js:171 | when disabled, no callback is invoked in either state; when enabled, the callback is invoked exactly once with `!isOn`, and a missing callback throws |
| ToggleSwitch.TapTogglesCallerState | ToggleSwitch.js:171 | for a caller that stores what it receives, an enabled tap flips its state, a second tap restores it, and a disabled tap changes nothing |
| ToggleSwitch.LargeOffScenario | ToggleSwitch.js:75-92 | with default props, `size="large"`, off and a callback: dimensions 70/20/30/30/38, a plain track with background `#ecf0f1`, target `-1`, and a tap reports `true` |
| ToggleSwitch.DefaultTapThrows | ToggleSwitch.js:75-92 | the default props give no callback, so an enabled tap throws |
| Styles.FlattenLastWins | ToggleSwitch.js:97-108 | an effective style holds exactly the keys of its fragments, and each key has the value of the last fragment that holds it |
| Styles.FlattenPair | ToggleSwitch.js:107 | the array `[defaults, override]` means the right-biased union `defaults + override` |
| Styles.OverrideWins | ToggleSwitch.js:131 | appending an override fragment keeps every earlier key, adds the override's keys, and gives each override key the override's value |

## Left out

- Animation timing. `Animated.timing`, its interpolation and the `offsetX` value (ToggleSwitch.js:94, 157-161) are delegated to the platform. `Render` records only the request: target, duration and driver flag. A render that throws while off has already started its animation towards `-1` (the request precedes the style builders); the model's `Failure(ReadOfNull)` does not record that request.
- The element tree beyond the track variant. The container `View` that spreads all props, its fixed row layout, `TouchableOpacity`'s `activeOpacity`, `Text`, and `LinearGradient` drawing are framework rendering. The icon is opaque `Content`.
- `propTypes` (ToggleSwitch.js:56-73) is runtime type checking with no behaviour of its own. Style props passed as registered numeric style ids are not modelled; overrides are always maps.
- Malformed custom records. Missing or non-numeric fields would give `undefined`/`NaN` arithmetic in JavaScript. `Dimensions` has integer fields, so fractional custom sizes are not represented either.

=== FILE: outcomes.dfy ===
/** Failure-compatible wrappers used by the toggle switch model.
    `Option` stands for a JavaScript value that may be `null`; `Result`
    stands for an evaluation that may throw. */
module Outcomes {

  datatype Option<+T> = None | Some(value: T)

  /** The only failures the component can raise: both are JavaScript
      `TypeError`s, never signalled on purpose by the component. */
  datatype JsError =
    | ReadOfNull        // a property read on `null` dimensions
    | CallOfUndefined   // calling an `onToggle` that was never supplied

  datatype Result<+R> = Success(value: R) | Failure(error: JsError) {

    predicate IsFailure() {
      Failure?
    }

    function PropagateFailure<U>(): (r: Result<U>)
      requires Failure?
    {
      Failure(error)
    }

    function Extract(): (v: R)
      requires Success?
    {
      value
    }
  }
}

=== FILE: sizing.dfy ===
/** The dimension resolver: a size name, and for `"custom"` a caller's
    record, select the five layout numbers of one switch. */
module Sizing {
  import opened Outcomes

  /** Track width and padding, thumb width and height, and the distance
      subtracted from the track width to find the "on" thumb offset. */
  datatype Dimensions = Dimensions(
    width: int,
    padding: int,
    circleWidth: int,
    circleHeight: int,
    translateX: int)

  const Small := Dimensions(40, 10, 15, 15, 22)
  const Large := Dimensions(70, 20, 30, 30, 38)
  /** Used for `"medium"` and for every size name the switch does not know. */
  const Fallback := Dimensions(46, 12, 18, 18, 26)

  /** The size names with a dedicated branch; all others fall back. */
  predicate IsNamedSize(size: string) {
    size == "small" || size == "large" || size == "custom"
  }

  /** Resolves dimensions. `"custom"` hands back the caller's record, or
      `None` (JavaScript `null`) when none was given; no size name is an error. */
  function CalculateDimensions(size: string, customStyle: Option<Dimensions>): (r: Option<Dimensions>)
    ensures size == "small" ==> r == Some(Dimensions(40, 10, 15, 15, 22))
    ensures size == "large" ==> r == Some(Dimensions(70, 20, 30, 30, 38))
    ensures size == "custom" ==> r == customStyle
    ensures !IsNamedSize(size) ==> r == Some(Dimensions(46, 12, 18, 18, 26))
    ensures r.None? <==> size == "custom" && customStyle.None?
  {
    match size
    case "small" => Some(Small)
    case "large" => Some(Large)
    case "custom" => customStyle
    case _ => Some(Fallback)
  }

  /** The shape every built-in dimension set has: positive numbers, a
      circular thumb, and an "on" offset strictly inside the track. */
  predicate WellFormed(d: Dimensions) {
    && d.circleWidth > 0
    && d.circleWidth == d.circleHeight
    && d.padding > 0
    && 0 < d.translateX < d.width
  }

  /** The default size `"medium"` has no branch of its own: it resolves
      like any unknown name, and the custom record is then ignored. */
  lemma FallbackIgnoresNameAndRecord(s1: string, s2: string, c1: Option<Dimensions>, c2: Option<Dimensions>)
    requires !IsNamedSize(s1) && !IsNamedSize(s2)
    ensures CalculateDimensions(s1, c1) == CalculateDimensions(s2, c2) == CalculateDimensions("medium", None)
  {
  }

  /** Only `"custom"` looks at the caller's record, and it returns that
      record untouched whatever it holds. */
  lemma CustomIsIdentity(size: string, c1: Option<Dimensions>, c2: Option<Dimensions>)
    ensures CalculateDimensions("custom", c1) == c1
    ensures size != "custom" ==> CalculateDimensions(size, c1) == CalculateDimensions(size, c2)
  {
  }

  /** Every non-custom size yields a well-formed dimension set. */
  lemma PresetsWellFormed(size: string, c: Option<Dimensions>)
    requires size != "custom"
    ensures CalculateDimensions(size, c).Some?
    ensures WellFormed(CalculateDimensions(size, c).value)
  {
  }
}

=== FILE: styles.dfy ===
/** Style fragments and the way a style array is read: fragments are
    merged from left to right, and a later fragment wins on a shared key. */
module Styles {

  /** The values the component writes into a style fragment. */
  datatype Value =
    | Str(s: string)
    | Num(n: real)
    | Extent(width: real, height: real)   // a `{width, height}` record such as a shadow offset
    | AnimatedTranslateX                  // `[{translateX: offsetX}]`, bound to the live animated offset

  type Style = map<string, Value>

  /** True when fragment `i` is the last fragment of `fs` holding key `k`. */
  ghost predicate LastHolder(fs: seq<Style>, i: int, k: string)
  {
    0 <= i < |fs| && k in fs[i] && forall j :: i < j < |fs| ==> k !in fs[j]
  }

  /** The effective style of a style array: the fragments merged from
      left to right, each one overriding the keys it shares with those
      before it. */
  function Flatten(fs: seq<Style>): (r: Style)
  {
    if |fs| == 0 then map[] else Flatten(fs[..|fs| - 1]) + fs[|fs| - 1]
  }

  /** The effective style holds exactly the keys of the fragments, and each
      key carries the value of the last fragment that holds it. */
  lemma {:induction false} FlattenLastWins(fs: seq<Style>)
    ensures forall k :: k in Flatten(fs) <==> exists i :: 0 <= i < |fs| && k in fs[i]
    ensures forall i, k :: LastHolder(fs, i, k) ==> k in Flatten(fs) && Flatten(fs)[k] == fs[i][k]
  {
    if |fs| > 0 {
      var init := fs[..|fs| - 1];
      var last := fs[|fs| - 1];
      FlattenLastWins(init);
      var r := Flatten(fs);
      assert r == Flatten(init) + last;
      forall k | k in r
        ensures exists i :: 0 <= i < |fs| && k in fs[i]
      {
        if k in last {
          assert k in fs[|fs| - 1];
        } else {
          var i :| 0 <= i < |init| && k in init[i];
          assert k in fs[i];
        }
      }
      forall k, i | 0 <= i < |fs| && k in fs[i]
        ensures k in r
      {
        if i < |init| {
          assert k in init[i];
        }
      }
      forall i, k | LastHolder(fs, i, k)
        ensures k in r && r[k] == fs[i][k]
      {
        if i < |init| {
          assert k !in last;
          assert LastHolder(init, i, k) by {
            forall j | i < j < |init| ensures k !in init[j] {
              assert init[j] == fs[j];
            }
          }
        }
      }
    }
  }

  /** A two-fragment array, `[defaults, override]`, is the right-biased
      union of the two fragments. */
  lemma FlattenPair(defaults: Style, override: Style)
    ensures Flatten([defaults, override]) == defaults + override
  {
    assert [defaults, override][..1] == [defaults];
    assert [defaults][..0] == [];
    assert Flatten([defaults]) == map[] + defaults;
    assert map[] + defaults == defaults;
  }

  /** Appending an override can only add keys, never drop one, and each of
      its own keys takes the override's value. */
  lemma OverrideWins(fs: seq<Style>, override: Style, k: string)
    ensures k in Flatten(fs + [override]) <==> k in Flatten(fs) || k in override
    ensures k in override ==> Flatten(fs + [override])[k] == override[k]
    ensures k !in override && k in Flatten(fs) ==> Flatten(fs + [override])[k] == Flatten(fs)[k]
  {
  }
}

=== FILE: toggle_switch.dfy ===
/** The `ToggleSwitch` component: the props it reads, the dimensions it
    fixes at construction, the two style builders, the animation target,
    the tap handler and the gradient/plain render branch. */
module ToggleSwitch {
  import opened Outcomes
  import opened Styles
  import opened Sizing

  /** Opaque renderable content placed inside the thumb. */
  datatype Content = Content(tag: string)

  /** The props the component reads. An empty `labelText` stands for an absent
      one (both are falsy); `hasOnToggle` says whether a callback was given. */
  datatype Props = Props(
    isOn: bool,
    labelText: string,
    onColor: string,
    offColor: string,
    size: string,
    customStyle: Option<Dimensions>,
    labelStyle: Style,
    thumbOnStyle: Style,
    thumbOffStyle: Style,
    trackOnStyle: Style,
    trackOffStyle: Style,
    hasOnToggle: bool,
    icon: Option<Content>,
    disabled: bool,
    animationSpeed: int,
    useNativeDriver: bool,
    circleColor: string,
    colors: seq<string>,
    angle: bool)

  /** The component's default props; no callback and no custom record. */
  const DefaultProps := Props(
    isOn := false,
    labelText := "",
    onColor := "#4cd137",
    offColor := "#ecf0f1",
    size := "medium",
    customStyle := None,
    labelStyle := map[],
    thumbOnStyle := map[],
    thumbOffStyle := map[],
    trackOnStyle := map[],
    trackOffStyle := map[],
    hasOnToggle := false,
    icon := None,
    disabled := false,
    animationSpeed := 300,
    useNativeDriver := true,
    circleColor := "white",
    colors := ["#C932C3", "#EF8732"],
    angle := true)

  /** The platform globals the component consults. */
  datatype Env = Env(isRTL: bool, isWeb: bool)

  /** A mounted switch: the dimensions resolved when it was constructed and
      the props of its latest render. */
  datatype Instance = Instance(dimensions: Option<Dimensions>, props: Props)

  /** A new instance resolves its dimensions from the initial props; they
      are `null` only for `"custom"` without a record, and well-formed for
      every size but `"custom"`. */
  function Construct(p: Props): (inst: Instance)
    ensures inst.props == p
    ensures inst.dimensions.None? <==> p.size == "custom" && p.customStyle.None?
    ensures p.size == "custom" ==> inst.dimensions == p.customStyle
    ensures p.size != "custom" ==> inst.dimensions.Some? && WellFormed(inst.dimensions.value)
    ensures p.size != "custom" ==> inst.dimensions == CalculateDimensions(p.size, None)
  {
    Instance(CalculateDimensions(p.size, p.customStyle), p)
  }

  /** A re-render with new props. */
  function Update(inst: Instance, p: Props): (next: Instance)
    ensures next.props == p
    ensures next.dimensions == inst.dimensions
  {
    inst.(props := p)
  }

  /** A run of re-renders, applied in order. */
  function UpdateAll(inst: Instance, ps: seq<Props>): (last: Instance)
    decreases |ps|
  {
    if |ps| == 0 then inst else UpdateAll(Update(inst, ps[0]), ps[1..])
  }

  /** However many re-renders follow, with whatever size or custom record,
      the instance keeps the dimensions resolved at construction, and ends
      with the props of the last re-render. */
  lemma {:induction false} DimensionsFixedAtConstruction(inst: Instance, ps: seq<Props>)
    ensures UpdateAll(inst, ps).dimensions == inst.dimensions
    ensures UpdateAll(inst, ps).props == if |ps| == 0 then inst.props else ps[|ps| - 1]
    decreases |ps|
  {
    if |ps| > 0 {
      DimensionsFixedAtConstruction(Update(inst, ps[0]), ps[1..]);
    }
  }

  /** The style override selected by state. */
  function ByState(isOn: bool, onStyle: Style, offStyle: Style): (selected: Style)
  {
    if isOn then onStyle else offStyle
  }

  /** The track style array: computed defaults, then the state's override. */
  function TrackStyle(d: Dimensions, p: Props): (r: seq<Style>)
    ensures |r| == 2 && r[1] == ByState(p.isOn, p.trackOnStyle, p.trackOffStyle)
    ensures Flatten(r) == r[0] + r[1]
    ensures var eff := r[0] + r[1]; var ov := r[1];
      && eff.Keys == {"justifyContent", "width", "borderRadius", "padding", "backgroundColor"} + ov.Keys
      && (forall k :: k in ov ==> eff[k] == ov[k])
      && ("justifyContent" !in ov ==> eff["justifyContent"] == Str("center"))
      && ("width" !in ov ==> eff["width"] == Num(d.width as real))
      && ("borderRadius" !in ov ==> eff["borderRadius"] == Num(20.0))
      && ("padding" !in ov ==> eff["padding"] == Num(d.padding as real))
      && ("backgroundColor" !in ov ==> eff["backgroundColor"] == Str(if p.isOn then p.onColor else p.offColor))
  {
    var computed := map[
      "justifyContent" := Str("center"),
      "width" := Num(d.width as real),
      "borderRadius" := Num(20.0),
      "padding" := Num(d.padding as real),
      "backgroundColor" := Str(if p.isOn then p.onColor else p.offColor)];
    var ov := ByState(p.isOn, p.trackOnStyle, p.trackOffStyle);
    FlattenPair(computed, ov);
    [computed, ov]
  }

  /** The keys of the thumb's computed fragment. */
  const ThumbKeys: set<string> := {
    "alignItems", "justifyContent", "margin", "left", "position", "backgroundColor", "transform",
    "width", "height", "borderRadius", "shadowColor", "shadowOffset", "shadowOpacity", "shadowRadius",
    "elevation"}

  /** The thumb's computed fragment: centred content, absolute position,
      platform-dependent margin and left, the thumb colour, the translation
      bound to the animated offset, size from the dimensions with half the
      width as corner radius, and a fixed drop shadow. */
  function ThumbDefaults(d: Dimensions, p: Props, env: Env): (m: Style)
    ensures m.Keys == ThumbKeys
    ensures m["alignItems"] == Str("center") && m["justifyContent"] == Str("center")
    ensures m["width"] == Num(d.circleWidth as real)
    ensures m["height"] == Num(d.circleHeight as real)
    ensures m["borderRadius"] == Num(d.circleWidth as real / 2.0)
    ensures m["backgroundColor"] == Str(p.circleColor)
    ensures m["transform"] == AnimatedTranslateX
    ensures m["position"] == Str("absolute")
    ensures m["margin"] == Num(if env.isWeb then 0.0 else 4.0)
    ensures m["left"] == Num(if env.isWeb then 4.0 else 0.0)
    ensures m["shadowColor"] == Str("#000") && m["shadowOffset"] == Extent(0.0, 2.0)
    ensures m["shadowOpacity"] == Num(0.2) && m["shadowRadius"] == Num(2.5) && m["elevation"] == Num(1.5)
  {
    map[
      "alignItems" := Str("center"),
      "justifyContent" := Str("center"),
      "margin" := Num(if env.isWeb then 0.0 else 4.0),
      "left" := Num(if env.isWeb then 4.0 else 0.0),
      "position" := Str("absolute"),
      "backgroundColor" := Str(p.circleColor),
      "transform" := AnimatedTranslateX,
      "width" := Num(d.circleWidth as real),
      "height" := Num(d.circleHeight as real),
      "borderRadius" := Num(d.circleWidth as real / 2.0),
      "shadowColor" := Str("#000"),
      "shadowOffset" := Extent(0.0, 2.0),
      "shadowOpacity" := Num(0.2),
      "shadowRadius" := Num(2.5),
      "elevation" := Num(1.5)]
  }

  /** The thumb style array: the computed fragment, then the state's
      override, whose keys win. */
  function ThumbStyle(d: Dimensions, p: Props, env: Env): (r: seq<Style>)
    ensures |r| == 2 && r[1] == ByState(p.isOn, p.thumbOnStyle, p.thumbOffStyle)
    ensures Flatten(r) == r[0] + r[1]
    ensures var eff := r[0] + r[1]; var ov := r[1];
      && eff.Keys == ThumbKeys + ov.Keys
      && (forall k :: k in ov ==> k in eff && eff[k] == ov[k])
      && ("alignItems" !in ov ==> "alignItems" in eff && eff["alignItems"] == Str("center"))
      && ("justifyContent" !in ov ==> "justifyContent" in eff && eff["justifyContent"] == Str("center"))
      && ("shadowColor" !in ov ==> "shadowColor" in eff && eff["shadowColor"] == Str("#000"))
      && ("shadowOffset" !in ov ==> "shadowOffset" in eff && eff["shadowOffset"] == Extent(0.0, 2.0))
      && ("shadowOpacity" !in ov ==> "shadowOpacity" in eff && eff["shadowOpacity"] == Num(0.2))
      && ("shadowRadius" !in ov ==> "shadowRadius" in eff && eff["shadowRadius"] == Num(2.5))
      && ("elevation" !in ov ==> "elevation" in eff && eff["elevation"] == Num(1.5))
      && ("width" !in ov ==> "width" in eff && eff["width"] == Num(d.circleWidth as real))
      && ("height" !in ov ==> "height" in eff && eff["height"] == Num(d.circleHeight as real))
      && ("borderRadius" !in ov ==> "borderRadius" in eff && eff["borderRadius"] == Num(d.circleWidth as real / 2.0))
      && ("backgroundColor" !in ov ==> "backgroundColor" in eff && eff["backgroundColor"] == Str(p.circleColor))
      && ("transform" !in ov ==> "transform" in eff && eff["transform"] == AnimatedTranslateX)
      && ("position" !in ov ==> "position" in eff && eff["position"] == Str("absolute"))
      && ("margin" !in ov ==> "margin" in eff && eff["margin"] == Num(if env.isWeb then 0.0 else 4.0))
      && ("left" !in ov ==> "left" in eff && eff["left"] == Num(if env.isWeb then 4.0 else 0.0))
  {
    var computed := ThumbDefaults(d, p, env);
    var ov := ByState(p.isOn, p.thumbOnStyle, p.thumbOffStyle);
    FlattenPair(computed, ov);
    [computed, ov]
  }

  /** The label style array: a fixed horizontal margin, then the caller's style. */
  function LabelStyle(p: Props): (r: seq<Style>)
    ensures var eff := Flatten(r);
      && eff.Keys == {"marginHorizontal"} + p.labelStyle.Keys
      && (forall k :: k in p.labelStyle ==> eff[k] == p.labelStyle[k])
      && ("marginHorizontal" !in p.labelStyle ==> eff["marginHorizontal"] == Num(10.0))
  {
    var computed := map["marginHorizontal" := Num(10.0)];
    FlattenPair(computed, p.labelStyle);
    [computed, p.labelStyle]
  }

  /** The offset the thumb is animated towards. Only the "on" branches read
      the dimensions, so an "off" switch gets -1 even without any. */
  function TargetOffset(isRTL: bool, isOn: bool, dims: Option<Dimensions>): (r: Result<int>)
    ensures !isOn ==> r == Success(-1)
    ensures isOn ==> (r.Success? <==> dims.Some?)
    ensures isOn && dims.Some? && !isRTL ==> r.value == dims.value.width - dims.value.translateX
    ensures isOn && dims.Some? && isRTL ==> r.value == dims.value.translateX - dims.value.width
    ensures r.Failure? ==> r.error == ReadOfNull
  {
    if !isRTL && isOn then
      if dims.None? then Failure(ReadOfNull) else Success(dims.value.width - dims.value.translateX)
    else if isRTL && isOn then
      if dims.None? then Failure(ReadOfNull) else Success(-dims.value.width + dims.value.translateX)
    else
      Success(-1)
  }

  /** Right-to-left mirrors the "on" offset, and leaves "off" at -1. */
  lemma TargetOffsetMirrors(isOn: bool, d: Dimensions)
    ensures isOn ==> TargetOffset(true, isOn, Some(d)).value == -TargetOffset(false, isOn, Some(d)).value
    ensures !isOn ==> TargetOffset(true, isOn, Some(d)) == TargetOffset(false, isOn, Some(d)) == Success(-1)
  {
  }

  /** For a well-formed dimension set the thumb moves in the reading
      direction: "on" lies right of the rest offset in left-to-right, and
      not right of it in right-to-left (the rest offset -1 is not centred,
      so a travel of exactly 1 lands the right-to-left "on" thumb on it). */
  lemma OnLiesInReadingDirection(d: Dimensions)
    requires WellFormed(d)
    ensures TargetOffset(true, true, Some(d)).value <= TargetOffset(true, false, Some(d)).value
    ensures TargetOffset(false, false, Some(d)).value < TargetOffset(false, true, Some(d)).value
  {
  }

  /** The rest offset is not centred between the two "on" offsets: a travel
      of exactly 1 puts the right-to-left "on" thumb on the rest offset, while
      the left-to-right one stays 2 units away. */
  lemma RestOffsetNotCentred(d: Dimensions)
    requires d.width - d.translateX == 1
    ensures TargetOffset(true, true, Some(d)) == TargetOffset(true, false, Some(d)) == Success(-1)
    ensures TargetOffset(false, true, Some(d)) == Success(1)
  {
  }

  /** The request handed to the platform's timing animation. */
  datatype Timing = Timing(toValue: int, duration: int, useNativeDriver: bool)

  datatype Thumb = Thumb(style: seq<Style>, icon: Option<Content>)

  /** The two track variants; both carry a style array and the thumb. */
  datatype Track =
    | Gradient(colors: seq<string>, useAngle: bool, angle: int, style: seq<Style>, thumb: Thumb)
    | Plain(style: seq<Style>, thumb: Thumb)

  datatype Label = Label(text: string, style: seq<Style>)

  /** What one render produces: the animation request, the optional label
      and the track inside the tappable region. */
  datatype Frame = Frame(animation: Timing, caption: Option<Label>, track: Track)

  /** One render pass. It reads the dimensions stored in the instance, never
      the current `size`; `null` dimensions make it throw. */
  function Render(inst: Instance, env: Env): (r: Result<Frame>)
    ensures r.Success? <==> inst.dimensions.Some?
    ensures r.Failure? ==> r.error == ReadOfNull
    ensures r.Success? ==>
      var d := inst.dimensions.value; var p := inst.props; var f := r.value;
      && (f.track.Gradient? <==> p.isOn)
      && f.track.style == TrackStyle(d, p)
      && f.track.thumb == Thumb(ThumbStyle(d, p, env), p.icon)
      && f.animation.toValue == TargetOffset(env.isRTL, p.isOn, Some(d)).value
      && f.animation.duration == p.animationSpeed
      && f.animation.useNativeDriver == p.useNativeDriver
      && (f.caption.Some? <==> p.labelText != "")
      && (f.caption.Some? ==> f.caption.value == Label(p.labelText, LabelStyle(p)))
      && (f.track.Gradient? ==> f.track.colors == p.colors && f.track.useAngle == p.angle && f.track.angle == 180)
  {
    var p := inst.props;
    var toValue :- TargetOffset(env.isRTL, p.isOn, inst.dimensions);
    if inst.dimensions.None? then
      Failure(ReadOfNull)
    else
      var d := inst.dimensions.value;
      var caption := if p.labelText != "" then Some(Label(p.labelText, LabelStyle(p))) else None;
      var thumb := Thumb(ThumbStyle(d, p, env), p.icon);
      var track :=
        if p.isOn then Gradient(p.colors, p.angle, 180, TrackStyle(d, p), thumb)
        else Plain(TrackStyle(d, p), thumb);
      Success(Frame(Timing(toValue, p.animationSpeed, p.useNativeDriver), caption, track))
  }

  /** Rendering does not depend on the current `size` or custom record:
      changing them after construction has no visible effect. */
  lemma RenderIgnoresSizeProps(inst: Instance, env: Env, size: string, c: Option<Dimensions>)
    ensures Render(Update(inst, inst.props.(size := size, customStyle := c)), env) == Render(inst, env)
  {
  }

  /** A `"custom"` switch constructed without a record renders nothing:
      its first render throws, and so does every render after any run of
      re-renders, even ones that later supply a record. */
  lemma CustomWithoutRecordThrows(p: Props, ps: seq<Props>, env: Env)
    requires p.size == "custom" && p.customStyle.None?
    ensures Render(UpdateAll(Construct(p), ps), env) == Failure(ReadOfNull)
  {
    DimensionsFixedAtConstruction(Construct(p), ps);
  }

  /** The tap handler. It returns the callback invocations it makes, in
      order, or the error thrown when the callback is missing. */
  function Tap(p: Props): (r: Result<seq<bool>>)
    ensures p.disabled ==> r == Success([])
    ensures !p.disabled ==> (r.Success? <==> p.hasOnToggle)
    ensures r.Success? && !p.disabled ==> |r.value| == 1 && r.value[0] == !p.isOn
    ensures r.Failure? ==> r.error == CallOfUndefined
  {
    if p.disabled then Success([])
    else if !p.hasOnToggle then Failure(CallOfUndefined)
    else Success([!p.isOn])
  }

  /** A caller that owns `isOn` and stores whatever value its callback
      receives; with no invocation it keeps its state. */
  function CallerState(isOn: bool, calls: seq<bool>): (state: bool)
  {
    if |calls| == 0 then isOn else calls[|calls| - 1]
  }

  /** An enabled tap flips the caller's state; two taps restore it; a
      disabled tap never changes it. */
  lemma TapTogglesCallerState(p: Props)
    requires p.hasOnToggle
    ensures Tap(p).Success?
    ensures CallerState(p.isOn, Tap(p).value) == (p.isOn != !p.disabled)
    ensures var q := p.(isOn := CallerState(p.isOn, Tap(p).value));
      CallerState(q.isOn, Tap(q).value) == p.isOn
  {
  }

  /** The switch with default props, size `"large"`, off, and a callback:
      large dimensions, off-colour track, rest offset -1, and a tap that
      reports `true`. */
  lemma LargeOffScenario(env: Env)
    ensures var p := DefaultProps.(size := "large", hasOnToggle := true);
      var f := Render(Construct(p), env);
      && f.Success?
      && Construct(p).dimensions == Some(Dimensions(70, 20, 30, 30, 38))
      && f.value.track.Plain?
      && Flatten(f.value.track.style)["backgroundColor"] == Str("#ecf0f1")
      && f.value.animation.toValue == -1
      && Tap(p) == Success([true])
  {
  }

  /** The default props alone give a switch whose enabled tap throws,
      because no callback was given. */
  lemma DefaultTapThrows()
    ensures Tap(DefaultProps) == Failure(CallOfUndefined)
  {
  }

  /** A switch built `"small"` and re-rendered `"large"` keeps drawing a
      40-unit track. */
  lemma StaleSizeScenario(env: Env)
    ensures var inst := Update(Construct(DefaultProps.(size := "small")), DefaultProps.(size := "large"));
      var f := Render(inst, env);
      && f.Success?
      && Flatten(f.value.track.style)["width"] == Num(40.0)
  {
  }

  /** For every non-custom size the thumb is a circle: equal width and
      height, and twice the corner radius is the width. */
  lemma PresetThumbIsCircle(p: Props, env: Env)
    requires p.size != "custom"
    requires var ov := ByState(p.isOn, p.thumbOnStyle, p.thumbOffStyle);
      "width" !in ov && "height" !in ov && "borderRadius" !in ov
    ensures var d := CalculateDimensions(p.size, p.customStyle).value;
      var eff := Flatten(ThumbStyle(d, p, env));
      && eff["width"] == eff["height"]
      && eff["width"].n == 2.0 * eff["borderRadius"].n
  {
  }
}
